=== FILE: README.md ===
# RBAC backend: authentication and authorization boundary

A Dafny model of the request-authorization core of an Express/Mongoose backend.
Users sign in locally or with Google. Administrators list, delete and re-role users.
Every protected request first passes `verifyToken`. The admin-only routes then also pass
`authorizeRole("Admin")`. `GET /tasks/:userId` and the user dashboard run `verifyToken` only.

- `verifyToken` resolves who is calling. It reads the signed `token` cookie when one is
  present. Otherwise it falls back to a user id taken from the request itself.
- `authorizeRole("Admin")` admits or refuses the request by that resolved role.

Everything is written as pure functions over immutable values:

- **Store** (`UserModel.Db`): users keyed by `_id`, the collection's natural order, and tasks.
  `ValidStore` is what the schema and its unique indexes guarantee at rest.
- **Collaborators** (`Http.Env`): `jwt.verify` as a three-way verdict (throws, falsy,
  payload), `mongoose.isValidObjectId`, and the task schema's validator.
  Each is left uninterpreted.
- **Store failures** (`Values.Fault`): names the awaited store call that throws first.
  Every handler then takes its catch branch.
- **Middlewares** return `Next(request)` or `Halt(response)`.
  **Handlers** return a `Reply`: one response plus the resulting store.
  **Routes** (`AdminRoutes.Dispatch`) compose the two.

Facts the proofs make explicit:

- A token whose verification throws (expired, bad signature) is answered with 500, not 401,
  because `jwt.verify` throws into the catch block (verifyToken.js:13,49-51).
  401 on the token branch comes only from a falsy decode result.
- With no token cookie, `verifyToken` trusts a truthy `body.userId`, else the path's `:userId`
  (verifyToken.js:26). Nothing proves the caller owns that id.
  - With no `body.userId`, on `/delete/user/:userId` and `/update/user/:userId` that id is the
    TARGET's. So the target's own stored role decides the role check
    (`AdminRoutes.TargetRoleDecides`), and a request with no credentials can delete any Admin
    (`AdminRoutes.AnonymousDeletesAdmin`).
  - With any Admin's id in `body.userId`, every admin-only route opens
    (`AdminRoutes.AnyAdminIdOpensGate`), so an anonymous request can delete any user
    (`AdminRoutes.AnonymousDeletesAnyone`).
- `updateUserRole` and `getUserDetails` remove only `password` from the returned document.
  `resetPasswordToken` and `verificationToken` stay in it (admin.controller.js:81-84,
  user.controller.js:6; `Http.Public`).
- `updateTask` has no ownership check. Any existing user id in the body may change any task.
- `updateUserRole` sets the re-issued cookie, a token for (TARGET id, new role), on the calling
  admin's own response (admin.controller.js:76; `AdminController.UpdateUserRole`). After changing
  another user's role, the admin's browser therefore authenticates on the token branch as that user.

## Model

| member | source | states |
|---|---|---|
| UserModel.CredentialRequired | backend/models/user.model.js:10-16 | a document with neither a non-empty password nor a non-empty googleId fails validation whatever its other fields |
| UserModel.WithDefaults | backend/models/user.model.js:21-36 | a created document gets role "User" and isVerified false when those are not supplied, and lastLogin defaults to the clock; supplied fields are kept |
| UserModel.Create | backend/models/user.model.js:5-42 | `User.create` succeeds iff the document validates, its `_id` is free and no other document has its email or its present googleId; it then inserts exactly that document at the end of the natural order |
| UserModel.CreateKeepsValidStore | backend/models/user.model.js:5-42 | an accepted create keeps required fields, role enum, unique email and sparse-unique googleId true of the whole store |
| UserModel.Save | backend/models/user.model.js:5-42 | `save` of a read document succeeds exactly when it still exists, validates and breaks no unique index, and then replaces only that document |
| UserModel.SaveKeepsValidStore | backend/models/user.model.js:5-42 | an accepted save keeps the store consistent |
| UserModel.ValidStore | backend/models/user.model.js:5-42 | a consistent store has only valid documents, pairwise distinct emails and present googleIds, and a natural order naming each stored user once, so the order is exactly as long as the store |
| UserModel.OrderCountsUsers | backend/models/user.model.js:5-42 | a duplicate-free order naming exactly the stored ids has as many entries as the store has users |
| UserModel.CreateRejectsDuplicateEmail | backend/models/user.model.js:5-9 | creating a document whose email some stored user already has is rejected |
| UserModel.CreateRejectsDuplicateGoogleId | backend/models/user.model.js:38-42 | creating a document with a googleId some stored user already has is rejected; documents without one are not compared |
| UserModel.Find | backend/controllers/admin.controller.js:64-70 | `findById`: an undefined key finds nothing, a non-ObjectId key or a failing store throws, otherwise the stored document is returned |
| UserModel.Remove | backend/controllers/admin.controller.js:33 | deletion removes exactly that id from the users and from the natural order; tasks are untouched |
| UserModel.RemoveKeepsValidStore | backend/controllers/admin.controller.js:33 | removing a user keeps the store consistent |
| UserModel.Without | backend/controllers/admin.controller.js:33 | the natural order after a delete holds every other id, still without duplicates |
| Http.Public | backend/controllers/admin.controller.js:81-84 | a returned user document lacks `password` and equals the stored one in every other field |
| RoleGate.AuthorizeRole | backend/middleware/authorizeRole.js:1-13 | next is called, with the request unmodified, iff the role is defined and in the allowed list; otherwise 403 "Forbidden - …" and no next |
| RoleGate.DecidedByRoleAlone | backend/middleware/authorizeRole.js:3-4 | two requests with the same role get the same decision, whatever their token, params and body |
| RoleGate.MissingRoleDenied | backend/middleware/authorizeRole.js:4-9 | an undefined role is always refused with 403 |
| RoleGate.Monotone | backend/middleware/authorizeRole.js:1-4 | enlarging the allowed list never turns an admission into a refusal |
| SessionGate.FallbackId | backend/middleware/verifyToken.js:26 | the fallback id is `body.userId` when truthy, else `params.userId` |
| SessionGate.VerifyToken | backend/middleware/verifyToken.js:5-53 | token branch: throw gives 500, falsy gives 401, payload sets userId/role without a store read; no-token branch: missing or non-ObjectId id gives 401, store failure 500, unknown id 401 "Google sign-in not found", known id sets userId and the stored role; every halt is 401 or 500 |
| SessionGate.NextOnlyWhenResolved | backend/middleware/verifyToken.js:15-48 | next runs iff a branch reached the assignments of userId and role, and nothing else in the request changes |
| SessionGate.TokenIgnoresCallerIds | backend/middleware/verifyToken.js:6-24 | with a token cookie present, body and path ids, the store and store faults do not affect the outcome |
| SessionGate.UnauthorizedSources | backend/middleware/verifyToken.js:13-19 | a 401 with a token present means verification returned falsy; a throwing verification never yields 401 |
| AdminController.Listings | backend/controllers/admin.controller.js:7 | each listed row is the projection of a stored user to `_id`, name, email and role; rows are distinct when the order is, and there is one per entry when the order names only stored users |
| AdminController.ListingsComplete | backend/controllers/admin.controller.js:7 | every user named in the natural order appears in the listing |
| AdminController.GetAllUsers | backend/controllers/admin.controller.js:4-17 | a failing store gives 500; otherwise 200 with rows that are projections of stored users (no password or token can appear); the store is unchanged |
| AdminController.AllUsersListedOnce | backend/controllers/admin.controller.js:7-12 | on a consistent store every user is listed exactly once, and the list has as many rows as the store has users |
| AdminController.DeleteUser | backend/controllers/admin.controller.js:19-46 | absent id gives 404 "User not found" with the store unchanged; present id and no failure gives 200 with `success` true and removes exactly that user; a throwing lookup or delete gives 500 "Server error" with `success` false; every non-200 leaves the store unchanged |
| AdminController.DeleteKeepsValidStore | backend/controllers/admin.controller.js:33-38 | deleteUser keeps the store consistent |
| AdminController.UpdateUserRole | backend/controllers/admin.controller.js:49-93 | a role outside {"User","Admin"} gives 400 "Invalid role" before any lookup, store unchanged; absent id gives 404; a throwing lookup or a failing save gives 500 with the store unchanged, so no store fault can yield 200; success (`success` true) changes only the target's role, issues a token for (id, new role) and returns "User role updated successfully" with the user without password |
| AdminController.UpdateRoleSucceeds | backend/controllers/admin.controller.js:63-78 | on a consistent store, with neither the lookup nor the save failing, a valid role for an existing user always ends in 200 |
| AdminController.UpdateRoleIdempotent | backend/controllers/admin.controller.js:73-76 | re-setting a user's current role leaves the store identical and still issues a token for it |
| AdminController.UpdateRoleKeepsValidStore | backend/controllers/admin.controller.js:73-74 | updateUserRole keeps the store consistent |
| UserController.GetUserDetails | backend/controllers/user.controller.js:4-20 | 200 exactly when `req.userId` names a stored user and the store works, with `success` true and that user minus password; an id that resolves to no document gives 404 "User not found"; a throwing lookup (fault or malformed id) gives 500; store unchanged |
| UserController.DetailsHidePasswordOnly | backend/controllers/user.controller.js:6-15 | the returned user has no password and every other field as stored |
| UserController.DetailsSeeRoleUpdate | backend/controllers/user.controller.js:6-15 | after a successful role update, the target's next details request returns 200 with the stored user carrying the new role, password still hidden |
| UserController.UpdateTask | backend/controllers/user.controller.js:23-49 | an unknown body userId gives 404 "User not found" whatever the task; a found user with an absent task gives 404 "Task not found"; a throwing user lookup, a throwing task lookup, or a save that fails or rejects the status gives 500 with the store unchanged; 200 iff both are found, no store call throws and the status passes the task validator, and then `success` is true and only that task's status changes; failures leave the store unchanged |
| UserController.UpdateTaskFrame | backend/controllers/user.controller.js:38-44 | on success the users, the other tasks and the task's other fields are unchanged |
| UserController.AnyUserMayUpdateAnyTask | backend/controllers/user.controller.js:26-39 | the outcome does not depend on which existing user id the body names: there is no ownership check |
| Passport.FindLinked | backend/config/passport.js:18 | the `$or` lookup returns a stored user with the profile's googleId or email, and returns none only when no user in the natural order has either |
| Passport.NewGoogleUser | backend/config/passport.js:22-27 | a created Google user has the profile's id, email and name, isVerified true, role "User" and no password |
| Passport.GoogleUserValidWithoutPassword | backend/config/passport.js:22-27 | the created Google user has no password and still passes validation, because its googleId stands in for the password |
| Passport.GoogleVerify | backend/config/passport.js:15-35 | missing email or any throwing store call (lookup, create or save) gives done(err, null); a match is signed in with only lastLogin written; no match creates exactly one user at the end of the order; a failure leaves the store unchanged except for a user created before the final save threw |
| Passport.LinksExistingAccount | backend/config/passport.js:18-31 | when some user has the profile's googleId or email, that kind of user is signed in, no user is created, and googleId is not written |
| Passport.CreatesOneUser | backend/config/passport.js:20-31 | with no linked user and well-formed profile fields, exactly one verified "User" is created with the profile's googleId, email and name, and it is signed in |
| Passport.GoogleVerifyKeepsValidStore | backend/config/passport.js:18-31 | the callback keeps the store consistent |
| Passport.DeserializeUser | backend/config/passport.js:45-52 | a stored id gives back the current stored user; an unknown id gives a null user; a failing store or malformed id gives an error |
| Passport.SessionRoundTrip | backend/config/passport.js:40-51 | deserializing the serialized id of a stored user gives back that user |
| Passport.SessionSeesRoleChange | backend/config/passport.js:40-51 | the session keeps only the `_id`, so after a successful role update the next deserialization of that user's session, whatever document it was serialized from, yields the stored user with the new role |
| AdminRoutes.Gate | backend/routes/admin.route.js:8-12 | verifyToken runs first; the role check runs only after it succeeds; an admin-only chain lets a request through only with role "Admin" |
| AdminRoutes.Dispatch | backend/routes/admin.route.js:8-12 | a halted gate answers with the store untouched; a passing request on `/users`, `/delete/user` or `/update/user` is served by getAllUsers, deleteUser or updateUserRole respectively, and one on `/assign/task` or `/tasks` is handed on |
| AdminRoutes.UnauthenticatedStopsAtGate | backend/routes/admin.route.js:8-12 | a request that fails authentication never reaches the role gate or a handler and gets 401 or 500 |
| AdminRoutes.NonAdminForbidden | backend/routes/admin.route.js:8-11 | on every admin-only route a caller resolving to any role but "Admin" gets 403 and the store is unchanged |
| AdminRoutes.TasksNeedOnlyAuthentication | backend/routes/admin.route.js:12 | `GET /tasks/:userId` hands every authenticated request to its handler, whatever the role |
| AdminRoutes.TargetRoleDecides | backend/routes/admin.route.js:8-11 | with no token and no body userId, an admin-only route admits the request iff the TARGET user's stored role is "Admin" |
| AdminRoutes.AnonymousDeletesAdmin | backend/routes/admin.route.js:9 | a request with no credentials at all deletes any user whose role is "Admin" |
| AdminRoutes.AnyAdminIdOpensGate | backend/routes/admin.route.js:8-11 | with no token, a body userId naming any stored Admin passes every admin-only gate, resolved as that Admin |
| AdminRoutes.AnonymousDeletesAnyone | backend/routes/admin.route.js:9 | with no token and any Admin's id in the body, a delete request removes whichever stored user the path names |

## Left out

- The `console.log` and `console.error` calls in the catch blocks are logging side effects and are not modelled.
- `assignTask` and `getUserTasks`: their bodies are not part of this model. `AdminRoutes.Dispatch` stops at `Delegated(request)` when a request reaches them.
- `generateTokenAndSetCookie` is not part of this model. A response records only that a token was issued for (user id, role). Cookie attributes and expiry are not modelled.
- JWT signing and verification, and password hashing: cryptography, replaced by the uninterpreted `Env.jwtVerify`. Signature checking and expiry arithmetic are not modelled.
- ObjectId syntax: `Env.isObjectId` stands both for `mongoose.isValidObjectId` and for the cast `findById` performs. Any difference between the two is not modelled.
- The task schema is not part of this model. Its save validation is the uninterpreted `Env.taskStatusOk`.
- Mongoose timestamps (`createdAt`, `updatedAt`) are database internals.
- The clock is a single value `now`, used for both the default `lastLogin` at create and the later `new Date()`.
- Dynamic JavaScript values: body and path fields are optional strings. Non-string JSON values (numbers, objects) are not modelled.
- Natural order is modelled as insertion order.
- Passport.FindLinked: when several users match, which one `findOne($or)` returns is unspecified; the model takes the first in insertion order.
- Concurrency between requests and last-write-wins are not modelled.
- Signup, login and the email-verification and password-reset handlers are not part of this model.
- The frontend, email delivery, Express/session setup, `oauth.route.js` and `user.route.js` are UI, transport or wiring.
- What Passport does with a null user from `deserializeUser` is not modelled.
- Passport.LinksExistingAccount: promises only that SOME linked user is signed in. When one user matches by googleId and another by email, which one `findOne($or)` returns is unspecified.

=== FILE: admin_controller.dfy ===
/** The handlers of backend/controllers/admin.controller.js: `getAllUsers`,
    `deleteUser` and `updateUserRole`. Each is lookup, validate, mutate,
    respond; every failure of an awaited store call is answered with 500. */
module AdminController {
  import opened Values
  import opened UserModel
  import opened Http

  function Project(id: Id, u: User): Listing
  {
    Listing(id, u.name, u.email, u.role)
  }

  /** The users named by `order`, in that order, each cut down to
      `_id`, name, email and role. */
  function Listings(users: map<Id, User>, order: seq<Id>): (r: seq<Listing>)
    ensures forall i :: 0 <= i < |r| ==> r[i].id in users && r[i].id in order && r[i] == Project(r[i].id, users[r[i].id])
    ensures NoDup(order) ==> forall i, j :: 0 <= i < j < |r| ==> r[i].id != r[j].id
    ensures (forall id :: id in order ==> id in users) ==> |r| == |order|
    decreases |order|
  {
    if |order| == 0 then []
    else
      var rest := Listings(users, order[1..]);
      if order[0] in users then
        assert NoDup(order) ==> order[0] !in order[1..];
        [Project(order[0], users[order[0]])] + rest
      else rest
  }

  /** Every user named by `order` is listed. */
  lemma {:induction false} ListingsComplete(users: map<Id, User>, order: seq<Id>, id: Id)
    requires id in order && id in users
    ensures exists i :: 0 <= i < |Listings(users, order)| && Listings(users, order)[i].id == id
    decreases |order|
  {
    var r := Listings(users, order);
    if order[0] == id {
      assert r[0].id == id;
    } else {
      ListingsComplete(users, order[1..], id);
      var rest := Listings(users, order[1..]);
      var i :| 0 <= i < |rest| && rest[i].id == id;
      if order[0] in users {
        assert r[i + 1] == rest[i];
      } else {
        assert r[i] == rest[i];
      }
    }
  }

  /** `getAllUsers`: one store call (call 0). */
  function GetAllUsers(db: Db, fault: Fault): (r: Reply)
    ensures r.db == db
    ensures Fails(fault, 0) ==> r.res == Failure(500, ServerErrorText)
    ensures !Fails(fault, 0) ==> r.res.status == 200 && r.res.success && r.res.payload.UserList?
    ensures r.res.payload.UserList? ==>
      forall i :: 0 <= i < |r.res.payload.users| ==>
        var l := r.res.payload.users[i];
        l.id in db.users && l == Project(l.id, db.users[l.id])
  {
    if Fails(fault, 0) then Reply(Failure(500, ServerErrorText), db)
    else Reply(Response(200, true, UserList(Listings(db.users, db.order)), None), db)
  }

  /** On a consistent store every user is listed exactly once, so the list
      is exactly as long as the store is large. */
  lemma AllUsersListedOnce(env: Env, db: Db, fault: Fault)
    requires ValidStore(db, env.isObjectId)
    requires !Fails(fault, 0)
    ensures var ls := GetAllUsers(db, fault).res.payload.users;
      && (forall id :: id in db.users ==> exists i :: 0 <= i < |ls| && ls[i].id == id)
      && (forall i, j :: 0 <= i < j < |ls| ==> ls[i].id != ls[j].id)
      && |ls| == |db.users|
  {
    forall id | id in db.users
      ensures exists i :: 0 <= i < |Listings(db.users, db.order)| && Listings(db.users, db.order)[i].id == id
    {
      ListingsComplete(db.users, db.order, id);
    }
  }

  /** `deleteUser`: `findById` is call 0, `findByIdAndDelete` call 1. */
  function DeleteUser(env: Env, db: Db, req: Request, fault: Fault): (r: Reply)
    ensures r.res.status in {200, 404, 500} && r.res.cookie.None?
    ensures r.res.status == 404 <==>
      !Fails(fault, 0) && Find(db.users, env.isObjectId, req.params.userId, false).Missing?
    ensures r.res.status == 404 ==> r.res.payload == Note(UserNotFoundText)
    ensures r.res.status == 200 <==>
      Find(db.users, env.isObjectId, req.params.userId, Fails(fault, 0)).Found? && !Fails(fault, 1)
    ensures r.res.status == 200 ==>
      req.params.userId.Some? &&
      var id := req.params.userId.value;
      && id in db.users
      && r.db.users == db.users - {id}
      && r.db.tasks == db.tasks
      && (forall k :: k in r.db.order <==> k in db.order && k != id)
      && r.res.payload == Note(DeletedText)
    ensures r.res.status == 200 ==> r.res.success
    ensures r.res.status == 500 ==> r.res == Failure(500, ServerErrorText)
    ensures r.res.status != 200 ==> r.db == db
  {
    match Find(db.users, env.isObjectId, req.params.userId, Fails(fault, 0))
    case Threw => Reply(Failure(500, ServerErrorText), db)
    case Missing => Reply(Failure(404, UserNotFoundText), db)
    case Found(id, _) =>
      if Fails(fault, 1) then Reply(Failure(500, ServerErrorText), db)
      else Reply(Response(200, true, Note(DeletedText), None), Remove(db, id))
  }

  lemma DeleteKeepsValidStore(env: Env, db: Db, req: Request, fault: Fault)
    requires ValidStore(db, env.isObjectId)
    ensures ValidStore(DeleteUser(env, db, req, fault).db, env.isObjectId)
  {
  }

  /** The roles `updateUserRole` accepts. */
  const ValidRoles: seq<string> := [UserRole, AdminRole]

  /** `updateUserRole`: the role in the body is checked before anything is
      read; `findById` is call 0 and `user.save()` call 1. On success a token
      for the target's id and new role is issued. */
  function UpdateUserRole(env: Env, db: Db, req: Request, fault: Fault): (r: Reply)
    ensures !(req.body.role.Some? && req.body.role.value in ValidRoles) ==>
      r == Reply(Failure(400, InvalidRoleText), db)
    ensures r.res.status in {200, 400, 404, 500}
    ensures r.res.status == 404 <==>
      && req.body.role.Some? && IsRole(req.body.role.value)
      && !Fails(fault, 0) && Find(db.users, env.isObjectId, req.params.userId, false).Missing?
    ensures r.res.status == 404 ==> r.res.payload == Note(UserNotFoundText)
    ensures r.res.status == 200 ==>
      req.params.userId.Some? && req.body.role.Some? &&
      var id := req.params.userId.value;
      var role := req.body.role.value;
      && id in db.users && IsRole(role)
      && r.db == db.(users := db.users[id := db.users[id].(role := role)])
      && r.res.cookie == Some(Grant(id, role))
      && r.res.success
      && r.res.payload == NotedUserDoc(RoleUpdatedText, id, Public(db.users[id].(role := role)))
    ensures r.res.status != 200 ==> r.db == db && r.res.cookie.None? && !r.res.success
    // a throwing findById (call 0) or save (call 1) is answered with 500
    ensures Fails(fault, 0) || Fails(fault, 1) ==> r.res.status != 200
    ensures req.body.role.Some? && IsRole(req.body.role.value)
            && Find(db.users, env.isObjectId, req.params.userId, Fails(fault, 0)).Threw? ==>
      r.res == Failure(500, ServerErrorText)
    ensures && req.body.role.Some? && IsRole(req.body.role.value)
            && Find(db.users, env.isObjectId, req.params.userId, Fails(fault, 0)).Found?
            && Fails(fault, 1) ==>
      r.res == Failure(500, ServerErrorText)
  {
    if !(req.body.role.Some? && req.body.role.value in ValidRoles) then
      Reply(Failure(400, InvalidRoleText), db)
    else
      var role := req.body.role.value;
      match Find(db.users, env.isObjectId, req.params.userId, Fails(fault, 0))
      case Threw => Reply(Failure(500, ServerErrorText), db)
      case Missing => Reply(Failure(404, UserNotFoundText), db)
      case Found(id, user) =>
        var updated := user.(role := role);
        var saved := Save(db, id, updated);
        if Fails(fault, 1) || saved.None? then Reply(Failure(500, ServerErrorText), db)
        else Reply(Response(200, true, NotedUserDoc(RoleUpdatedText, id, Public(updated)), Some(Grant(id, role))), saved.value)
  }

  /** On a consistent store, a valid role and an existing target succeed
      unless the store itself fails; only the target's `role` changes. */
  lemma UpdateRoleSucceeds(env: Env, db: Db, req: Request, fault: Fault)
    requires ValidStore(db, env.isObjectId)
    requires req.body.role.Some? && IsRole(req.body.role.value)
    requires req.params.userId.Some? && req.params.userId.value in db.users
    requires !Fails(fault, 0) && !Fails(fault, 1)
    ensures UpdateUserRole(env, db, req, fault).res.status == 200
  {
  }

  /** Setting a user's role to the role it already has leaves the store as it
      was, and still issues a token. */
  lemma UpdateRoleIdempotent(env: Env, db: Db, req: Request, fault: Fault)
    requires req.params.userId.Some? && req.params.userId.value in db.users
    requires req.body.role == Some(db.users[req.params.userId.value].role)
    requires UpdateUserRole(env, db, req, fault).res.status == 200
    ensures UpdateUserRole(env, db, req, fault).db == db
    ensures UpdateUserRole(env, db, req, fault).res.cookie == Some(Grant(req.params.userId.value, req.body.role.value))
  {
  }

  lemma UpdateRoleKeepsValidStore(env: Env, db: Db, req: Request, fault: Fault)
    requires ValidStore(db, env.isObjectId)
    ensures ValidStore(UpdateUserRole(env, db, req, fault).db, env.isObjectId)
  {
  }
}

=== FILE: admin_routes.dfy ===
/** The route table of backend/routes/admin.route.js: each route's middleware
    chain (`verifyToken`, then `authorizeRole("Admin")` on the admin-only
    routes) composed with its handler. */
module AdminRoutes {
  import opened Values
  import opened UserModel
  import opened Http
  import opened RoleGate
  import opened SessionGate
  import opened AdminController

  datatype Route =
    | ListUsers        // GET    /users/:userId
    | DeleteUserRoute  // DELETE /delete/user/:userId
    | UpdateUserRoute  // PATCH  /update/user/:userId
    | AssignTaskRoute  // POST   /assign/task/:userId
    | UserTasksRoute   // GET    /tasks/:userId

  /** Routes whose chain includes `authorizeRole("Admin")`. */
  predicate AdminOnly(route: Route)
  {
    route != UserTasksRoute
  }

  /** The middleware in front of the route's handler. */
  function Gate(env: Env, db: Db, route: Route, req: Request, fault: Fault): (s: Step)
    ensures VerifyToken(env, db, req, fault).Halt? ==> s == VerifyToken(env, db, req, fault)
    ensures !AdminOnly(route) ==> s == VerifyToken(env, db, req, fault)
    ensures AdminOnly(route) && VerifyToken(env, db, req, fault).Next? ==>
      s == AuthorizeRole([AdminRole], VerifyToken(env, db, req, fault).req)
    ensures s.Next? ==> s == VerifyToken(env, db, req, fault)
    ensures AdminOnly(route) && s.Next? ==> s.req.role == Some(AdminRole)
  {
    var v := VerifyToken(env, db, req, fault);
    if v.Halt? || !AdminOnly(route) then v
    else AuthorizeRole([AdminRole], v.req)
  }

  /** How a request ends: answered by middleware or by a handler of this
      model, or handed to `assignTask` / `getUserTasks`, whose bodies are not
      part of this model. */
  datatype Outcome = Served(reply: Reply) | Delegated(req: Request)

  /** One request through the route's whole chain. `gateFault` is for
      `verifyToken`'s store call, `handlerFault` for the handler's. */
  function Dispatch(env: Env, db: Db, route: Route, req: Request, gateFault: Fault, handlerFault: Fault): (o: Outcome)
    ensures Gate(env, db, route, req, gateFault).Halt? ==>
      o == Served(Reply(Gate(env, db, route, req, gateFault).res, db))
    ensures o.Delegated? <==>
      (route == AssignTaskRoute || route == UserTasksRoute) && Gate(env, db, route, req, gateFault).Next?
    ensures o.Delegated? ==> o.req == Gate(env, db, route, req, gateFault).req
    // which handler a request let through reaches
    ensures Gate(env, db, route, req, gateFault).Next? && route == ListUsers ==>
      o == Served(GetAllUsers(db, handlerFault))
    ensures Gate(env, db, route, req, gateFault).Next? && route == DeleteUserRoute ==>
      o == Served(DeleteUser(env, db, Gate(env, db, route, req, gateFault).req, handlerFault))
    ensures Gate(env, db, route, req, gateFault).Next? && route == UpdateUserRoute ==>
      o == Served(UpdateUserRole(env, db, Gate(env, db, route, req, gateFault).req, handlerFault))
  {
    match Gate(env, db, route, req, gateFault)
    case Halt(res) => Served(Reply(res, db))
    case Next(authed) =>
      match route
      case ListUsers => Served(GetAllUsers(db, handlerFault))
      case DeleteUserRoute => Served(DeleteUser(env, db, authed, handlerFault))
      case UpdateUserRoute => Served(UpdateUserRole(env, db, authed, handlerFault))
      case AssignTaskRoute => Delegated(authed)
      case UserTasksRoute => Delegated(authed)
  }

  /** A request that fails authentication gets `verifyToken`'s own answer: the
      role gate and the handler never run and the store is untouched. */
  lemma UnauthenticatedStopsAtGate(env: Env, db: Db, route: Route, req: Request, gateFault: Fault, handlerFault: Fault)
    requires VerifyToken(env, db, req, gateFault).Halt?
    ensures Dispatch(env, db, route, req, gateFault, handlerFault) ==
      Served(Reply(VerifyToken(env, db, req, gateFault).res, db))
    ensures Dispatch(env, db, route, req, gateFault, handlerFault).reply.res.status in {401, 500}
  {
  }

  /** On every admin-only route a caller who resolves to any role other than
      "Admin" (the "User" role included) gets 403 and changes nothing. */
  lemma NonAdminForbidden(env: Env, db: Db, route: Route, req: Request, gateFault: Fault, handlerFault: Fault)
    requires AdminOnly(route)
    requires VerifyToken(env, db, req, gateFault).Next?
    requires VerifyToken(env, db, req, gateFault).req.role != Some(AdminRole)
    ensures Dispatch(env, db, route, req, gateFault, handlerFault) ==
      Served(Reply(Failure(403, ForbiddenText), db))
  {
  }

  /** `GET /tasks/:userId` is gated by authentication alone: any resolved
      role, or none, reaches the handler. */
  lemma TasksNeedOnlyAuthentication(env: Env, db: Db, req: Request, gateFault: Fault, handlerFault: Fault)
    requires VerifyToken(env, db, req, gateFault).Next?
    ensures Dispatch(env, db, UserTasksRoute, req, gateFault, handlerFault) ==
      Delegated(VerifyToken(env, db, req, gateFault).req)
  {
  }

  /** Without a token cookie and without `userId` in the body, the identity
      `verifyToken` trusts is the `:userId` being acted on, so the TARGET's
      stored role decides whether an admin-only route lets the request in. */
  lemma TargetRoleDecides(env: Env, db: Db, route: Route, req: Request, target: Id)
    requires ValidStore(db, env.isObjectId)
    requires AdminOnly(route)
    requires !Truthy(req.token) && !Truthy(req.body.userId)
    requires req.params.userId == Some(target) && target != "" && target in db.users
    ensures Gate(env, db, route, req, Healthy).Next? <==> db.users[target].role == AdminRole
  {
  }

  /** Consequently a request with no credentials at all can delete any user
      whose role is "Admin". */
  lemma AnonymousDeletesAdmin(env: Env, db: Db, req: Request, target: Id)
    requires ValidStore(db, env.isObjectId)
    requires !Truthy(req.token) && !Truthy(req.body.userId)
    requires req.params.userId == Some(target) && target != "" && target in db.users
    requires db.users[target].role == AdminRole
    ensures var o := Dispatch(env, db, DeleteUserRoute, req, Healthy, Healthy);
      && o.Served? && o.reply.res.status == 200
      && o.reply.db.users == db.users - {target}
  {
  }

  /** The trust gap in full: without a token cookie, a body `userId` naming
      ANY stored Admin opens every admin-only route, whoever the path names. */
  lemma AnyAdminIdOpensGate(env: Env, db: Db, route: Route, req: Request, admin: Id)
    requires ValidStore(db, env.isObjectId)
    requires AdminOnly(route)
    requires !Truthy(req.token)
    requires req.body.userId == Some(admin) && admin != "" && admin in db.users
    requires db.users[admin].role == AdminRole
    ensures Gate(env, db, route, req, Healthy) ==
      Next(req.(userId := Some(admin), role := Some(AdminRole)))
  {
  }

  /** So a request with no credentials, quoting any Admin's id in its body,
      deletes whichever stored user the path names. */
  lemma AnonymousDeletesAnyone(env: Env, db: Db, req: Request, admin: Id, target: Id)
    requires ValidStore(db, env.isObjectId)
    requires !Truthy(req.token)
    requires req.body.userId == Some(admin) && admin != "" && admin in db.users
    requires db.users[admin].role == AdminRole
    requires req.params.userId == Some(target) && target in db.users
    ensures var o := Dispatch(env, db, DeleteUserRoute, req, Healthy, Healthy);
      && o.Served? && o.reply.res.status == 200
      && o.reply.db.users == db.users - {target}
  {
  }
}

=== FILE: authorize_role.dfy ===
/** `authorizeRole(...allowedRoles)` of backend/middleware/authorizeRole.js: a
    pure membership test on `req.role`. */
module RoleGate {
  import opened Values
  import opened Http

  /** The middleware built by `authorizeRole(allowed...)`, applied to `req`.
      `Array.prototype.includes` never matches `undefined` against a list of
      role strings. */
  function AuthorizeRole(allowed: seq<string>, req: Request): (s: Step)
    ensures s.Next? <==> exists i :: 0 <= i < |allowed| && req.role == Some(allowed[i])
    ensures s.Next? ==> s.req == req
    ensures s.Halt? ==> s.res.status == 403 && !s.res.success && s.res.payload == Note(ForbiddenText)
    ensures s.Halt? ==> s.res.cookie.None?
  {
    if req.role.Some? && req.role.value in allowed then Next(req)
    else Halt(Failure(403, ForbiddenText))
  }

  /** Only `req.role` matters: the token, the parameters, the body and the
      resolved user id play no part in the decision. */
  lemma DecidedByRoleAlone(allowed: seq<string>, a: Request, b: Request)
    requires a.role == b.role
    ensures AuthorizeRole(allowed, a).Next? == AuthorizeRole(allowed, b).Next?
    ensures AuthorizeRole(allowed, a).Halt? ==> AuthorizeRole(allowed, a) == AuthorizeRole(allowed, b)
  {
  }

  /** A request whose role was never set is always refused. */
  lemma MissingRoleDenied(allowed: seq<string>, req: Request)
    requires req.role.None?
    ensures AuthorizeRole(allowed, req) == Halt(Failure(403, ForbiddenText))
  {
  }

  /** Enlarging the allowed list never turns an admission into a refusal. */
  lemma Monotone(allowed: seq<string>, more: seq<string>, req: Request)
    requires forall i :: 0 <= i < |allowed| ==> allowed[i] in more
    requires AuthorizeRole(allowed, req).Next?
    ensures AuthorizeRole(more, req) == AuthorizeRole(allowed, req)
  {
  }
}

=== FILE: http.dfy ===
/** Requests, responses and the collaborators the middleware calls but whose
    code is outside this model: `jwt.verify`, `mongoose.isValidObjectId` and
    the task schema's validator. */
module Http {
  import opened Values
  import opened UserModel

  /** The three ways `jwt.verify(token, secret)` can end: it throws (bad
      signature, expired, malformed), it returns a falsy value, or it returns
      the payload the token was signed with. */
  datatype Verdict = Throws | Falsy | Decoded(userId: Option<string>, role: Option<string>)

  datatype Env = Env(
    jwtVerify: string -> Verdict,
    isObjectId: string -> bool,
    taskStatusOk: Option<string> -> bool)

  datatype Params = Params(userId: Option<string>, taskId: Option<string>)

  datatype Body = Body(userId: Option<string>, role: Option<string>, status: Option<string>)

  /** An incoming request: the `token` cookie, path parameters, JSON body, and
      the `req.userId` / `req.role` slots the authentication middleware fills. */
  datatype Request = Request(
    token: Option<string>,
    params: Params,
    body: Body,
    userId: Option<string>,
    role: Option<string>)

  /** A session cookie issued by `generateTokenAndSetCookie(res, id, role)`. */
  datatype Grant = Grant(userId: Id, role: string)

  /** One row of the `User.find({}, "name email role")` projection: `_id` is
      selected by default, nothing else. */
  datatype Listing = Listing(id: Id, name: Option<string>, email: Option<string>, role: string)

  datatype Payload =
    | Note(text: string)
    | UserList(users: seq<Listing>)
    | UserDoc(id: Id, user: User)
    | NotedUserDoc(text: string, id: Id, user: User)
    | TaskDoc(id: Id, task: Task)

  datatype Response = Response(status: nat, success: bool, payload: Payload, cookie: Option<Grant>)

  /** What a middleware does with a request: call `next` with it, or answer. */
  datatype Step = Next(req: Request) | Halt(res: Response)

  /** What a handler leaves behind: its one response and the store. */
  datatype Reply = Reply(res: Response, db: Db)

  const ServerErrorText: string := "Server error"
  const InvalidTokenText: string := "Unauthorized - invalid token"
  const MissingIdText: string := "Unauthenticated - invalid or missing token or userId"
  const NoGoogleUserText: string := "Unauthorized - Google sign-in not found"
  const ForbiddenText: string := "Forbidden - You do not have the necessary permissions"
  const UserNotFoundText: string := "User not found"
  const TaskNotFoundText: string := "Task not found"
  const InvalidRoleText: string := "Invalid role"
  const DeletedText: string := "User deleted successfully"
  const RoleUpdatedText: string := "User role updated successfully"

  function Failure(status: nat, text: string): Response
  {
    Response(status, false, Note(text), None)
  }

  /** A user document as a response carries it: `password` left out. */
  function Public(u: User): (p: User)
    ensures p.password.None?
    ensures p.(password := u.password) == u
  {
    u.(password := None)
  }
}

=== FILE: passport.dfy ===
/** The Google strategy's verify callback of backend/config/passport.js (find
    or create, account linking, `lastLogin`), and the session's
    `serializeUser` / `deserializeUser` pair. */
module Passport {
  import opened Values
  import opened UserModel
  import opened Http
  import AdminController

  /** The parts of the Google profile the callback reads: `profile.id`,
      `profile.emails[0].value` (None when there is no first email) and
      `profile.displayName`. */
  datatype Profile = Profile(id: string, email: Option<string>, displayName: Option<string>)

  /** What the callback hands to `done`: `done(null, user)` carries the user's
      id, `done(err, null)` carries None. */
  datatype Callback = Callback(user: Option<Id>, db: Db)

  /** The `$or` filter of the `findOne`: same Google id, or same email. */
  predicate Links(u: User, googleId: string, email: string)
  {
    u.googleId == Some(googleId) || u.email == Some(email)
  }

  /** `findOne` with that filter. Which of several matches the database
      returns is unspecified; the model takes the first in insertion order. */
  function FindLinked(users: map<Id, User>, order: seq<Id>, googleId: string, email: string): (r: Option<Id>)
    ensures r.Some? ==> r.value in users && r.value in order && Links(users[r.value], googleId, email)
    ensures r.None? ==> forall id :: id in order && id in users ==> !Links(users[id], googleId, email)
    decreases |order|
  {
    if |order| == 0 then None
    else if order[0] in users && Links(users[order[0]], googleId, email) then Some(order[0])
    else FindLinked(users, order[1..], googleId, email)
  }

  /** The document `User.create` is given for a first Google sign-in, with the
      schema defaults applied. */
  function NewGoogleUser(p: Profile, email: string, now: Time): (u: User)
    ensures u.googleId == Some(p.id) && u.email == Some(email) && u.name == p.displayName
    ensures u.isVerified && u.role == UserRole && u.password.None? && u.lastLogin == now
  {
    WithDefaults(Draft(Some(email), None, p.displayName, Some(true), None, Some(p.id)), now)
  }

  /** A first Google sign-in needs no password: the Google id stands in for
      it, so the created document passes validation. */
  lemma GoogleUserValidWithoutPassword(p: Profile, email: string, now: Time)
    requires email != "" && Truthy(p.displayName) && p.id != ""
    ensures NewGoogleUser(p, email, now).password.None?
    ensures ValidUser(NewGoogleUser(p, email, now))
  {
  }

  /** The verify callback. Awaited store calls: `findOne` is call 0; then
      either `save` (call 1) of the linked user, or `create` (call 1) and
      `save` (call 2) of the new one. `freshId` is the `_id` the database
      assigns to a created document; `now` is `new Date()`. */
  function GoogleVerify(env: Env, db: Db, p: Profile, now: Time, freshId: Id, fault: Fault): (r: Callback)
    ensures p.email.None? || Fails(fault, 0) ==> r == Callback(None, db)
    // any throwing store call ends in done(err, null)
    ensures Fails(fault, 1) ==> r.user.None?
    ensures Fails(fault, 2) && r.user.Some? ==> r.user.value in db.users
    ensures r.user.Some? ==> r.user.value in r.db.users && r.db.users[r.user.value].lastLogin == now
    // a match resolves to an existing record: nothing but its lastLogin is written
    ensures r.user.Some? && r.user.value in db.users ==>
      && p.email.Some? && Links(db.users[r.user.value], p.id, p.email.value)
      && r.db == db.(users := db.users[r.user.value := db.users[r.user.value].(lastLogin := now)])
    // no match: exactly one new user, at the end of the natural order
    ensures r.user.Some? && r.user.value !in db.users ==>
      && p.email.Some? && r.user.value == freshId
      && (forall id :: id in db.order && id in db.users ==> !Links(db.users[id], p.id, p.email.value))
      && r.db.users == db.users[freshId := NewGoogleUser(p, p.email.value, now)]
      && r.db.order == db.order + [freshId] && r.db.tasks == db.tasks
    // a failure leaves the store as it was, except a user created before the
    // final save threw
    ensures r.user.None? ==>
      || r.db == db
      || (p.email.Some? && freshId !in db.users
          && r.db == db.(users := db.users[freshId := NewGoogleUser(p, p.email.value, now)], order := db.order + [freshId]))
  {
    if p.email.None? || Fails(fault, 0) then Callback(None, db)
    else
      var email := p.email.value;
      match FindLinked(db.users, db.order, p.id, email)
      case Some(id) =>
        var saved := Save(db, id, db.users[id].(lastLogin := now));
        if Fails(fault, 1) || saved.None? then Callback(None, db)
        else Callback(Some(id), saved.value)
      case None =>
        var created := Create(db, freshId, NewGoogleUser(p, email, now));
        if Fails(fault, 1) || created.None? then Callback(None, db)
        else
          var db1 := created.value;
          var saved := Save(db1, freshId, db1.users[freshId].(lastLogin := now));
          if Fails(fault, 2) || saved.None? then Callback(None, db1)
          else Callback(Some(freshId), saved.value)
  }

  /** Account linking: when some stored user has the profile's Google id or
      email, the callback signs in such a user and creates nobody. */
  lemma LinksExistingAccount(env: Env, db: Db, p: Profile, now: Time, freshId: Id, k: Id)
    requires ValidStore(db, env.isObjectId)
    requires p.email.Some? && k in db.users && Links(db.users[k], p.id, p.email.value)
    ensures var r := GoogleVerify(env, db, p, now, freshId, Healthy);
      && r.user.Some? && r.user.value in db.users
      && Links(db.users[r.user.value], p.id, p.email.value)
      && r.db.users.Keys == db.users.Keys && r.db.order == db.order
      && r.db.users[r.user.value].googleId == db.users[r.user.value].googleId
  {
  }

  /** A first sign-in with an unknown Google id and email creates exactly one
      verified user with the default role, and signs it in. */
  lemma CreatesOneUser(env: Env, db: Db, p: Profile, now: Time, freshId: Id)
    requires p.email.Some? && forall k :: k in db.users ==> !Links(db.users[k], p.id, p.email.value)
    requires freshId !in db.users
    requires Truthy(p.email) && Truthy(p.displayName) && p.id != ""
    ensures var r := GoogleVerify(env, db, p, now, freshId, Healthy);
      && r.user == Some(freshId)
      && r.db.users.Keys == db.users.Keys + {freshId}
      && |r.db.users| == |db.users| + 1
      && var u := r.db.users[freshId];
         u.googleId == Some(p.id) && u.email == p.email && u.name == p.displayName
         && u.isVerified && u.role == UserRole
  {
    // Without these steps the solver's search varies from seed to seed and
    // can exhaust its resource limit; they keep the proof stable.
    var email := p.email.value;
    var u := NewGoogleUser(p, email, now);
    assert FindLinked(db.users, db.order, p.id, email).None?;
    UnlinkedDoesNotClash(db.users, freshId, u, p.id, email);
    var db1 := Create(db, freshId, u).value;
    assert db1.users[freshId].(lastLogin := now) == u;
    UnlinkedDoesNotClash(db1.users, freshId, u, p.id, email);
    assert db1.users.Keys == db.users.Keys + {freshId};
  }

  /** A user whose Google id and email no other stored user has breaks no
      unique index. */
  lemma UnlinkedDoesNotClash(users: map<Id, User>, id: Id, u: User, googleId: string, email: string)
    requires u.googleId == Some(googleId) && u.email == Some(email)
    requires forall k :: k in users && k != id ==> !Links(users[k], googleId, email)
    ensures !Clashes(users, id, u)
  {
  }

  lemma GoogleVerifyKeepsValidStore(env: Env, db: Db, p: Profile, now: Time, freshId: Id, fault: Fault)
    requires ValidStore(db, env.isObjectId)
    requires env.isObjectId(freshId)
    ensures ValidStore(GoogleVerify(env, db, p, now, freshId, fault).db, env.isObjectId)
  {
    var r := GoogleVerify(env, db, p, now, freshId, fault);
    if p.email.Some? && !Fails(fault, 0) {
      var email := p.email.value;
      match FindLinked(db.users, db.order, p.id, email)
      case Some(id) =>
        var saved := Save(db, id, db.users[id].(lastLogin := now));
        if saved.Some? {
          SaveKeepsValidStore(db, env.isObjectId, id, db.users[id].(lastLogin := now));
        }
      case None =>
        var created := Create(db, freshId, NewGoogleUser(p, email, now));
        if created.Some? {
          CreateKeepsValidStore(db, env.isObjectId, freshId, NewGoogleUser(p, email, now));
          var db1 := created.value;
          var saved := Save(db1, freshId, db1.users[freshId].(lastLogin := now));
          if saved.Some? {
            SaveKeepsValidStore(db1, env.isObjectId, freshId, db1.users[freshId].(lastLogin := now));
          }
        }
    }
  }

  /** `serializeUser`: the session keeps the user's `_id` and nothing else. */
  function SerializeUser(id: Id, u: User): Id {
    id
  }

  /** What `deserializeUser` passes to `done`. */
  datatype Session = SessionError | Restored(user: Option<User>)

  /** `deserializeUser`: `findById` of the stored key, call 0. */
  function DeserializeUser(env: Env, db: Db, key: Id, fault: Fault): (s: Session)
    ensures s.Restored? && s.user.Some? ==> key in db.users && s.user.value == db.users[key]
    ensures s.Restored? && s.user.None? ==> key !in db.users
    ensures s.SessionError? <==> Fails(fault, 0) || !env.isObjectId(key)
  {
    match Find(db.users, env.isObjectId, Some(key), Fails(fault, 0))
    case Threw => SessionError
    case Missing => Restored(None)
    case Found(_, u) => Restored(Some(u))
  }

  /** Deserializing what was serialized gives back the stored user. */
  lemma SessionRoundTrip(env: Env, db: Db, id: Id)
    requires ValidStore(db, env.isObjectId) && id in db.users
    ensures DeserializeUser(env, db, SerializeUser(id, db.users[id]), Healthy) == Restored(Some(db.users[id]))
  {
  }

  /** The session holds only the `_id`, so a later change to the stored
      document is what the next request sees: after a successful
      `updateUserRole`, deserializing the target's session key, whatever
      document it was serialized from, gives the user with the new role. */
  lemma SessionSeesRoleChange(env: Env, db: Db, req: Request, fault: Fault, stale: User)
    requires AdminController.UpdateUserRole(env, db, req, fault).res.status == 200
    ensures req.params.userId.Some? && req.body.role.Some? && req.params.userId.value in db.users
    ensures DeserializeUser(env, AdminController.UpdateUserRole(env, db, req, fault).db,
                            SerializeUser(req.params.userId.value, stale), Healthy)
            == Restored(Some(db.users[req.params.userId.value].(role := req.body.role.value)))
  {
  }
}

=== FILE: user_controller.dfy ===
/** The handlers of backend/controllers/user.controller.js: `getUserDetails`
    and `updateTask`. */
module UserController {
  import opened Values
  import opened UserModel
  import opened Http
  import AdminController

  /** `getUserDetails`: reads the user the authentication middleware resolved
      (`req.userId`), call 0, and returns it without its password. */
  function GetUserDetails(env: Env, db: Db, req: Request, fault: Fault): (r: Reply)
    ensures r.db == db && r.res.cookie.None?
    ensures r.res.status in {200, 404, 500}
    ensures r.res.status == 200 <==>
      !Fails(fault, 0) && req.userId.Some? && env.isObjectId(req.userId.value) && req.userId.value in db.users
    ensures r.res.status == 200 ==>
      req.userId.Some? && req.userId.value in db.users && r.res.success &&
      r.res.payload == UserDoc(req.userId.value, Public(db.users[req.userId.value]))
    ensures r.res.status == 404 ==> r.res.payload == Note(UserNotFoundText)
    ensures !Fails(fault, 0) && Find(db.users, env.isObjectId, req.userId, false).Missing? ==>
      r.res == Failure(404, UserNotFoundText)
    ensures Find(db.users, env.isObjectId, req.userId, Fails(fault, 0)).Threw? ==>
      r.res == Failure(500, ServerErrorText)
  {
    match Find(db.users, env.isObjectId, req.userId, Fails(fault, 0))
    case Threw => Reply(Failure(500, ServerErrorText), db)
    case Missing => Reply(Failure(404, UserNotFoundText), db)
    case Found(id, user) => Reply(Response(200, true, UserDoc(id, Public(user)), None), db)
  }

  /** The user document a successful `getUserDetails` returns carries no
      password, and every other field as stored. */
  lemma DetailsHidePasswordOnly(env: Env, db: Db, req: Request, fault: Fault)
    requires GetUserDetails(env, db, req, fault).res.status == 200
    ensures var p := GetUserDetails(env, db, req, fault).res.payload;
      && p.user.password.None?
      && p.user.(password := db.users[p.id].password) == db.users[p.id]
  {
  }

  /** `getUserDetails` reads the store afresh: once `updateUserRole` has
      changed a user's role, that user's next details request returns the
      new role, with the password still hidden. */
  lemma DetailsSeeRoleUpdate(env: Env, db: Db, req: Request, fault: Fault, caller: Request)
    requires AdminController.UpdateUserRole(env, db, req, fault).res.status == 200
    requires caller.userId == req.params.userId
    ensures req.params.userId.Some? && req.body.role.Some? && req.params.userId.value in db.users
    ensures var id := req.params.userId.value;
      GetUserDetails(env, AdminController.UpdateUserRole(env, db, req, fault).db, caller, Healthy).res
      == Response(200, true, UserDoc(id, Public(db.users[id].(role := req.body.role.value))), None)
  {
  }

  /** `updateTask`: `User.findById(body.userId)` is call 0, `Task.findById`
      call 1, `task.save()` call 2. */
  function UpdateTask(env: Env, db: Db, req: Request, fault: Fault): (r: Reply)
    ensures r.res.cookie.None?
    ensures r.res.status in {200, 404, 500}
    // the user check comes first and dominates
    ensures !Fails(fault, 0) && Find(db.users, env.isObjectId, req.body.userId, false).Missing? ==>
      r == Reply(Failure(404, UserNotFoundText), db)
    // a throwing store call, at any of the three awaits, is answered with 500
    ensures Find(db.users, env.isObjectId, req.body.userId, Fails(fault, 0)).Threw? ==>
      r == Reply(Failure(500, ServerErrorText), db)
    ensures && !Fails(fault, 0) && Find(db.users, env.isObjectId, req.body.userId, false).Found?
            && Find(db.tasks, env.isObjectId, req.params.taskId, Fails(fault, 1)).Threw? ==>
      r == Reply(Failure(500, ServerErrorText), db)
    ensures && !Fails(fault, 0) && Find(db.users, env.isObjectId, req.body.userId, false).Found?
            && !Fails(fault, 1) && Find(db.tasks, env.isObjectId, req.params.taskId, false).Found?
            && (Fails(fault, 2) || !env.taskStatusOk(req.body.status)) ==>
      r == Reply(Failure(500, ServerErrorText), db)
    ensures && !Fails(fault, 0) && Find(db.users, env.isObjectId, req.body.userId, false).Found?
            && !Fails(fault, 1) && Find(db.tasks, env.isObjectId, req.params.taskId, false).Missing? ==>
      r == Reply(Failure(404, TaskNotFoundText), db)
    ensures r.res.status == 200 <==>
      && !Fails(fault, 0) && Find(db.users, env.isObjectId, req.body.userId, false).Found?
      && !Fails(fault, 1) && Find(db.tasks, env.isObjectId, req.params.taskId, false).Found?
      && !Fails(fault, 2) && env.taskStatusOk(req.body.status)
    ensures r.res.status == 404 && r.res.payload == Note(TaskNotFoundText) ==>
      req.body.userId.Some? && req.body.userId.value in db.users
    ensures r.res.status == 404 ==>
      r.res.payload in {Note(UserNotFoundText), Note(TaskNotFoundText)}
    ensures r.res.status == 200 ==>
      && req.params.taskId.Some? && req.params.taskId.value in db.tasks
      && req.body.userId.Some? && req.body.userId.value in db.users
      && r.db == db.(tasks := db.tasks[req.params.taskId.value := db.tasks[req.params.taskId.value].(status := req.body.status)])
      && r.res.success
      && r.res.payload == TaskDoc(req.params.taskId.value, r.db.tasks[req.params.taskId.value])
    ensures r.res.status != 200 ==> r.db == db && !r.res.success
  {
    match Find(db.users, env.isObjectId, req.body.userId, Fails(fault, 0))
    case Threw => Reply(Failure(500, ServerErrorText), db)
    case Missing => Reply(Failure(404, UserNotFoundText), db)
    case Found(_, _) =>
      match Find(db.tasks, env.isObjectId, req.params.taskId, Fails(fault, 1))
      case Threw => Reply(Failure(500, ServerErrorText), db)
      case Missing => Reply(Failure(404, TaskNotFoundText), db)
      case Found(tid, task) =>
        var updated := task.(status := req.body.status);
        if Fails(fault, 2) || !env.taskStatusOk(updated.status) then Reply(Failure(500, ServerErrorText), db)
        else
          var db' := db.(tasks := db.tasks[tid := updated]);
          Reply(Response(200, true, TaskDoc(tid, updated), None), db')
  }

  /** Only the one task's status changes: users, the other tasks and the
      task's other fields stay as they were. */
  lemma UpdateTaskFrame(env: Env, db: Db, req: Request, fault: Fault, other: Id)
    requires UpdateTask(env, db, req, fault).res.status == 200
    requires other in db.tasks && Some(other) != req.params.taskId
    ensures var db' := UpdateTask(env, db, req, fault).db;
      && db'.users == db.users && db'.order == db.order
      && db'.tasks.Keys == db.tasks.Keys
      && db'.tasks[other] == db.tasks[other]
      && db'.tasks[req.params.taskId.value].(status := db.tasks[req.params.taskId.value].status) == db.tasks[req.params.taskId.value]
  {
  }

  /** There is no ownership check: which existing user id the body names does
      not change the outcome. */
  lemma AnyUserMayUpdateAnyTask(env: Env, db: Db, a: Request, b: Request, fault: Fault)
    requires a.params == b.params && a.body.status == b.body.status
    requires a.body.userId.Some? && env.isObjectId(a.body.userId.value) && a.body.userId.value in db.users
    requires b.body.userId.Some? && env.isObjectId(b.body.userId.value) && b.body.userId.value in db.users
    ensures UpdateTask(env, db, a, fault) == UpdateTask(env, db, b, fault)
  {
  }
}

=== FILE: user_model.dfy ===
/** The `User` schema of backend/models/user.model.js, the task records the
    controllers touch, and the document store behind both, as immutable values.
    The store keeps users in a map keyed by `_id` plus an insertion order.
    MongoDB leaves the order of `find` results unspecified; the model takes
    insertion order wherever an order is needed. */
module UserModel {
  import opened Values

  type Id = string
  /** An abstract clock reading (`Date.now`). */
  type Time = int

  const AdminRole: string := "Admin"
  const UserRole: string := "User"

  /** The `enum` of the schema's `role` path. */
  predicate IsRole(r: string)
  {
    r == AdminRole || r == UserRole
  }

  /** One user document. `password` holds the stored hash; timestamps kept by
      the schema's `timestamps` option are not part of this model. */
  datatype User = User(
    email: Option<string>,
    password: Option<string>,
    name: Option<string>,
    lastLogin: Time,
    isVerified: bool,
    resetPasswordToken: Option<string>,
    resetPasswordExpiresAt: Option<Time>,
    verificationToken: Option<string>,
    verificationTokenExpiresAt: Option<Time>,
    role: string,
    googleId: Option<string>)

  /** The fields handed to `User.create`; `None` is a field left `undefined`. */
  datatype Draft = Draft(
    email: Option<string>,
    password: Option<string>,
    name: Option<string>,
    isVerified: Option<bool>,
    role: Option<string>,
    googleId: Option<string>)

  /** Mongoose's `required` validators: a String path fails when it is
      undefined or empty. `password` is required only while `googleId` is
      falsy; `role` must lie in the enum. So a document needs a password or a
      Google id, and either one alone is enough. */
  predicate ValidUser(u: User) {
    && Truthy(u.email)
    && Truthy(u.name)
    && IsRole(u.role)
    && (!Truthy(u.googleId) ==> Truthy(u.password))
  }

  /** A document with neither a password nor a Google id never validates,
      whatever its other fields. */
  lemma CredentialRequired(u: User)
    requires !Truthy(u.password) && !Truthy(u.googleId)
    ensures !ValidUser(u)
  {
  }

  /** The document a draft becomes once the schema defaults are applied. */
  function WithDefaults(d: Draft, now: Time): (u: User)
    ensures d.role.None? ==> u.role == UserRole
    ensures d.role.Some? ==> u.role == d.role.value
    ensures d.isVerified.None? ==> !u.isVerified
    ensures d.isVerified.Some? ==> u.isVerified == d.isVerified.value
    ensures u.lastLogin == now
    ensures u.email == d.email && u.password == d.password && u.name == d.name
    ensures u.googleId == d.googleId
    ensures u.resetPasswordToken.None? && u.verificationToken.None?
  {
    User(d.email, d.password, d.name, now,
         if d.isVerified.Some? then d.isVerified.value else false,
         None, None, None, None,
         if d.role.Some? then d.role.value else UserRole,
         d.googleId)
  }

  /** A task document (its schema file is not part of this model). */
  datatype Task = Task(
    title: Option<string>,
    description: Option<string>,
    status: Option<string>,
    assignedTo: Option<Id>,
    createdBy: Option<Id>)

  datatype Db = Db(users: map<Id, User>, order: seq<Id>, tasks: map<Id, Task>)

  predicate NoDup(s: seq<Id>)
  {
    forall i, j :: 0 <= i < j < |s| ==> s[i] != s[j]
  }

  /** The `unique: true` index on `email`. */
  ghost predicate UniqueEmails(users: map<Id, User>)
  {
    forall a, b :: a in users && b in users && a != b ==> users[a].email != users[b].email
  }

  /** The `unique: true, sparse: true` index on `googleId`: documents without
      the field are not indexed, the others must all differ. */
  ghost predicate UniqueGoogleIds(users: map<Id, User>)
  {
    forall a, b :: a in users && b in users && a != b && users[a].googleId.Some? ==>
      users[a].googleId != users[b].googleId
  }

  /** What the database guarantees of the users collection at rest: every
      document passes validation, the unique indexes hold, and the natural
      order names each stored document exactly once. */
  ghost predicate ValidStore(db: Db, isObjectId: string -> bool): (ok: bool)
    ensures ok ==> |db.order| == |db.users|
    ensures ok ==> forall a, b :: a in db.users && b in db.users && db.users[a].email == db.users[b].email ==> a == b
  {
    var ok :=
      && NoDup(db.order)
      && (forall id :: id in db.order <==> id in db.users)
      && (forall id :: id in db.users ==> isObjectId(id) && ValidUser(db.users[id]))
      && UniqueEmails(db.users)
      && UniqueGoogleIds(db.users);
    if ok then OrderCountsUsers(db.order, db.users); true else false
  }

  /** A duplicate-free order that names exactly the stored ids is as long as
      the store is large. */
  lemma {:induction false} OrderCountsUsers(order: seq<Id>, users: map<Id, User>)
    requires NoDup(order)
    requires forall id :: id in order <==> id in users
    ensures |order| == |users|
    decreases |order|
  {
    if |order| == 0 {
      assert users.Keys == {};
    } else {
      var x := order[0];
      var rest := users - {x};
      assert forall id :: id in order[1..] <==> id in rest by {
        forall id
          ensures id in order[1..] <==> id in rest
        {
          if id in order[1..] {
            assert id != x;
          }
          if id in rest {
            assert id in order && id != order[0];
            var i :| 0 <= i < |order| && order[i] == id;
            assert order[1..][i - 1] == id;
          }
        }
      }
      OrderCountsUsers(order[1..], rest);
      assert rest.Keys == users.Keys - {x};
    }
  }

  /** Whether storing `u` under `id` would violate a unique index because of
      some other document. */
  predicate Clashes(users: map<Id, User>, id: Id, u: User)
  {
    || (exists k :: k in users && k != id && users[k].email == u.email)
    || (u.googleId.Some? && exists k :: k in users && k != id && users[k].googleId == u.googleId)
  }

  /** `User.create`: validation, then the unique indexes (including the one on
      `_id`), then the insert at the end of the natural order. `None` is a
      rejected write. */
  function Create(db: Db, id: Id, u: User): (r: Option<Db>)
    ensures r.Some? <==> ValidUser(u) && id !in db.users && !Clashes(db.users, id, u)
    ensures r.Some? ==> r.value.users == db.users[id := u] && id !in db.users
    ensures r.Some? ==> r.value.order == db.order + [id] && r.value.tasks == db.tasks
  {
    if !ValidUser(u) || id in db.users || Clashes(db.users, id, u) then None
    else Some(db.(users := db.users[id := u], order := db.order + [id]))
  }

  /** `doc.save()` of a user that was read earlier: validation, the unique
      indexes, and a missing document (deleted meanwhile) all reject. */
  function Save(db: Db, id: Id, u: User): (r: Option<Db>)
    ensures r.Some? <==> id in db.users && ValidUser(u) && !Clashes(db.users, id, u)
    ensures r.Some? ==> r.value == db.(users := db.users[id := u])
  {
    if id !in db.users || !ValidUser(u) || Clashes(db.users, id, u) then None
    else Some(db.(users := db.users[id := u]))
  }

  /** `s` with every occurrence of `x` taken out, the rest in order. */
  function Without(s: seq<Id>, x: Id): (r: seq<Id>)
    ensures forall y :: y in r <==> y in s && y != x
    ensures NoDup(s) ==> NoDup(r)
    ensures |r| <= |s|
    decreases |s|
  {
    if |s| == 0 then []
    else
      var rest := Without(s[1..], x);
      if s[0] == x then rest
      else
        assert NoDup(s) ==> s[0] !in s[1..];
        [s[0]] + rest
  }

  /** `findByIdAndDelete` of a document that exists. */
  function Remove(db: Db, id: Id): (r: Db)
    ensures r.users == db.users - {id}
    ensures r.tasks == db.tasks
    ensures forall k :: k in r.order <==> k in db.order && k != id
  {
    db.(users := db.users - {id}, order := Without(db.order, id))
  }

  /** The result of `findById`. */
  datatype Lookup<T> = Threw | Missing | Found(id: Id, doc: T)

  /** `Model.findById(key)` on the collection `m`: an `undefined` key finds
      nothing, a key that is not an ObjectId fails the cast and throws, and a
      failing database throws as well. */
  function Find<T>(m: map<Id, T>, isObjectId: string -> bool, key: Option<string>, throws: bool): (r: Lookup<T>)
    ensures r.Threw? <==> throws || (key.Some? && !isObjectId(key.value))
    ensures r.Missing? <==> !throws && (key.None? || (isObjectId(key.value) && key.value !in m))
    ensures r.Found? ==> key == Some(r.id) && r.id in m && r.doc == m[r.id]
  {
    if throws || (key.Some? && !isObjectId(key.value)) then Threw
    else if key.None? || key.value !in m then Missing
    else Found(key.value, m[key.value])
  }

  lemma CreateKeepsValidStore(db: Db, isObjectId: string -> bool, id: Id, u: User)
    requires ValidStore(db, isObjectId)
    requires isObjectId(id)
    requires Create(db, id, u).Some?
    ensures ValidStore(Create(db, id, u).value, isObjectId)
  {
  }

  /** The unique index on `email` rejects a second document with a taken
      address. */
  lemma CreateRejectsDuplicateEmail(db: Db, id: Id, u: User, other: Id)
    requires other in db.users && db.users[other].email == u.email
    ensures Create(db, id, u).None?
  {
  }

  /** The sparse unique index on `googleId` rejects a second document with a
      Google id that is already stored. */
  lemma CreateRejectsDuplicateGoogleId(db: Db, id: Id, u: User, other: Id)
    requires u.googleId.Some? && other in db.users && db.users[other].googleId == u.googleId
    ensures Create(db, id, u).None?
  {
  }

  lemma SaveKeepsValidStore(db: Db, isObjectId: string -> bool, id: Id, u: User)
    requires ValidStore(db, isObjectId)
    requires Save(db, id, u).Some?
    ensures ValidStore(Save(db, id, u).value, isObjectId)
  {
    var users := db.users[id := u];
    assert !Clashes(db.users, id, u);
    forall a, b | a in users && b in users && a != b
      ensures users[a].email != users[b].email
      ensures users[a].googleId.Some? ==> users[a].googleId != users[b].googleId
    {
      if a != id && b != id {
        assert users[a] == db.users[a] && users[b] == db.users[b];
      }
    }
    assert UniqueEmails(users) && UniqueGoogleIds(users);
    assert forall k :: k in db.order <==> k in users;
  }

  lemma RemoveKeepsValidStore(db: Db, isObjectId: string -> bool, id: Id)
    requires ValidStore(db, isObjectId)
    ensures ValidStore(Remove(db, id), isObjectId)
  {
  }
}

=== FILE: values.dfy ===
/** Small value types shared by every part of the model: optional values, the
    JavaScript truthiness of an optional string, and the persistence faults a
    request may run into. */
module Values {

  /** A JavaScript value that may be `undefined` (None). */
  datatype Option<+T> = None | Some(value: T)

  /** JavaScript truthiness of a string-valued field: `undefined` and the empty
      string are falsy, every other string is truthy. */
  predicate Truthy(o: Option<string>)
  {
    o.Some? && o.value != ""
  }

  /** Which awaited persistence call of one handler invocation throws first.
      Calls are numbered from 0 in the order the handler awaits them; control
      never comes back after the first throw, so one index is enough. */
  datatype Fault = Healthy | FailsAt(call: nat)

  predicate Fails(f: Fault, call: nat)
  {
    f.FailsAt? && f.call == call
  }
}

=== FILE: verify_token.dfy ===
/** `verifyToken` of backend/middleware/verifyToken.js: resolves the caller's
    identity and role either from the signed `token` cookie or, without one,
    from a user id the caller supplies, read back from the store. */
module SessionGate {
  import opened Values
  import opened UserModel
  import opened Http

  /** The fallback identity: `req.body.userId || req.params.userId`. */
  function FallbackId(req: Request): (id: Option<string>)
    ensures Truthy(req.body.userId) ==> id == req.body.userId
    ensures !Truthy(req.body.userId) ==> id == req.params.userId
  {
    if Truthy(req.body.userId) then req.body.userId else req.params.userId
  }

  /** The middleware. Its one awaited store call (`User.findOne`) is call 0 of
      `fault`; a throw there, or from `jwt.verify`, lands in the catch block. */
  function VerifyToken(env: Env, db: Db, req: Request, fault: Fault): (s: Step)
    // signed-token branch: the payload decides, the store is never consulted
    ensures Truthy(req.token) ==>
      match env.jwtVerify(req.token.value)
      case Throws => s == Halt(Failure(500, ServerErrorText))
      case Falsy => s == Halt(Failure(401, InvalidTokenText))
      case Decoded(uid, role) => s == Next(req.(userId := uid, role := role))
    // fallback branch: a caller-supplied id, trusted once it names a stored user
    ensures !Truthy(req.token) && !(Truthy(FallbackId(req)) && env.isObjectId(FallbackId(req).value)) ==>
      s == Halt(Failure(401, MissingIdText))
    ensures !Truthy(req.token) && s.Next? ==>
      var id := FallbackId(req).value;
      && Truthy(FallbackId(req)) && env.isObjectId(id) && id in db.users
      && s.req == req.(userId := Some(id), role := Some(db.users[id].role))
    ensures !Truthy(req.token) && Truthy(FallbackId(req)) && env.isObjectId(FallbackId(req).value) ==>
      if Fails(fault, 0) then s == Halt(Failure(500, ServerErrorText))
      else if FallbackId(req).value !in db.users then s == Halt(Failure(401, NoGoogleUserText))
      else s.Next?
    // every path either calls next or writes exactly one failure response
    ensures s.Halt? ==> s.res.status in {401, 500} && !s.res.success && s.res.cookie.None?
  {
    if Truthy(req.token) then
      match env.jwtVerify(req.token.value)
      case Throws => Halt(Failure(500, ServerErrorText))
      case Falsy => Halt(Failure(401, InvalidTokenText))
      case Decoded(uid, role) => Next(req.(userId := uid, role := role))
    else
      var key := FallbackId(req);
      if !Truthy(key) || !env.isObjectId(key.value) then Halt(Failure(401, MissingIdText))
      else if Fails(fault, 0) then Halt(Failure(500, ServerErrorText))
      else if key.value !in db.users then Halt(Failure(401, NoGoogleUserText))
      else
        var user := db.users[key.value];
        Next(req.(userId := Some(key.value), role := Some(user.role)))
  }

  /** `next` runs exactly when one of the two branches reached the lines that
      set `req.userId` and `req.role`, and nothing else about the request
      changes. */
  lemma NextOnlyWhenResolved(env: Env, db: Db, req: Request, fault: Fault)
    ensures VerifyToken(env, db, req, fault).Next? <==>
      if Truthy(req.token) then env.jwtVerify(req.token.value).Decoded?
      else Truthy(FallbackId(req)) && env.isObjectId(FallbackId(req).value)
           && FallbackId(req).value in db.users && !Fails(fault, 0)
    ensures VerifyToken(env, db, req, fault).Next? ==>
      VerifyToken(env, db, req, fault).req.(userId := req.userId, role := req.role) == req
  {
  }

  /** With a token cookie present, the ids in the body and the path, the store
      and store faults are all irrelevant. */
  lemma TokenIgnoresCallerIds(env: Env, db: Db, db': Db, a: Request, b: Request, fa: Fault, fb: Fault)
    requires Truthy(a.token) && a.token == b.token
    ensures VerifyToken(env, db, a, fa).Halt? <==> VerifyToken(env, db', b, fb).Halt?
    ensures VerifyToken(env, db, a, fa).Halt? ==> VerifyToken(env, db, a, fa) == VerifyToken(env, db', b, fb)
    ensures VerifyToken(env, db, a, fa).Next? ==>
      && VerifyToken(env, db, a, fa).req.userId == VerifyToken(env, db', b, fb).req.userId
      && VerifyToken(env, db, a, fa).req.role == VerifyToken(env, db', b, fb).req.role
  {
  }

  /** A 401 comes only from a falsy `jwt.verify` result or from the fallback
      branch; a token whose verification throws is answered with 500. */
  lemma UnauthorizedSources(env: Env, db: Db, req: Request, fault: Fault)
    requires VerifyToken(env, db, req, fault).Halt?
    requires VerifyToken(env, db, req, fault).res.status == 401
    ensures Truthy(req.token) ==> env.jwtVerify(req.token.value).Falsy?
  {
  }
}
